=== FILE: README.md ===
# X-button detector, modelled in Dafny

This project models the detector in `x-detector.js`. The detector finds a small
"X"-shaped close button inside captured screen regions. Each region is a *base
map*: a grid of quantised brightness levels indexed `[x][y]`. For every base map
the detector builds these maps in order:

- two *slope maps*: diagonal run lengths in the ↗/↙ and ↘/↖ directions;
- a *crossing map*: the best matched pair of opposite slopes at a cell and its four axis neighbours;
- a *contrast map*: dead-zone colour differences against the axis neighbours;
- a *saliency map*: the crossing and contrast maps fused, weighted by the local density of crossing scores.

Across all base maps, the first map whose best point scores highest wins.

Modules, one per stage (files of the same name):

- `Numbers`, `Grids`, `Settings`: integer helpers, rectangular grids, and the tunable parameters.
- `Colour`: colour difference with a dead zone, and pixel quantisation.
- `Slopes`: diagonal walks and slope maps.
- `Crossing`: matching opposite slopes, and the crossing map.
- `Contrast`: contrast score per cell, and the contrast map.
- `Fusion`: cluster weight, intersection, and the saliency map.
- `Selection`: the scan for the best point of one map.
- `Detector`: the pipeline per map, and the selection across maps.

Modelling decisions:

- The source's module-level constants become a `Config` record. `Settings.Defaults`
  holds the source's values: 16 levels, tolerance 1, diff distance 1, slope tolerance 1,
  threshold 1, intersect distance 6, cluster radius 2. Every function of the model accepts any
  configuration with a non-zero level count, which the fusion divides by. Most lemmas hold
  for every such configuration. `Detector.SaliencyDefinedAtDefaults` and
  `Detector.DefaultWindowScored` are stated at `Defaults` only. `Fusion.ClusterWeightOfConstant`
  assumes a positive cluster radius, and `Fusion.IntersectionLowerBound` a positive
  intersect distance.
- `computeMaxSlopeMap` writes only the cells with `1 <= x <= w-3` and `1 <= y <= h-3`. The
  other cells stay JavaScript `undefined`. The crossing map is therefore a grid of
  `Option<int>`. Any sum or minimum that touches an undefined cell is NaN in the source,
  and `None` in the saliency map (`Option<real>`). A NaN never compares greater, so
  `FindMaxPoint` never selects an undefined cell.
- The fusion divides by 16 and by 49. It is computed on `real`, which is exact rational
  arithmetic. This is an idealisation of JavaScript doubles.
- `Math.round` is rounding to nearest with halves upward. For any level count `L` the
  quantised value `(r+g+b)*L/765` is never exactly half-way (`2*s*L` is even and
  `765*(2k+1)` is odd), so the exact model agrees with the floating-point one.
- A base map must be rectangular and have at least one column. The source reads
  `base[0].length` and fails without it. A map with zero rows is accepted.
- Points where the code's behaviour is easy to misread. The model follows the code in each:
  - The cluster weight sums the half-open window `[x-R, x+R) × [y-R, y+R)`, clipped to the
    grid, and divides by `(2R)^2`. The comment on `CLUSTER_RADIUS` (x-detector.js:16)
    describes a `2R+1` square instead. `Fusion.ClusterWeightOfConstant` shows the
    weight is an average over exactly `(2R)^2` cells.
  - Slopes are computed for every cell, borders included. On the border they are 0
    because the walk has no room (`Slopes.Slope`).
  - `findXButton` on a non-empty list always returns an index in `[0, len)`, never -1.
    The reason: `findMaxPoint` never scores below 0, and the loop starts from -1.

## Model

| member | source | states |
|---|---|---|
| `Colour.ColorDifference` | x-detector.js:49-53 | the difference is 0 inside the dead zone (`abs(a-b) <= DIFF_THRESHOLD`), is `abs(a-b) - DIFF_THRESHOLD` outside it, and never exceeds `abs(a-b)` |
| `Colour.ColorDifferenceFacts` | x-detector.js:49-53 | zero exactly inside the dead zone; symmetric in its two cells; zero for a cell compared with an equal value |
| `Colour.Quantise` | x-detector.js:289-290 | the level is in `[0, COLOR_LEVELS]` and is the nearest integer to `(r+g+b)*L/765`, with halves rounded up; black gives 0 and white gives L |
| `Colour.BuildBaseMap` | x-detector.js:286-292 | the base map has the pixel grid's width and height, and every cell is a level in `[0, COLOR_LEVELS]` |
| `Slopes.ArmsInBoundsIsReach` | x-detector.js:193 | the four-comparison loop guard holds at step k exactly when k is at most the distance to the nearest edge |
| `Slopes.Walk` | x-detector.js:193-204 | continuing the walk keeps every completed step successful, and stops at the first step that leaves the grid or has an arm outside the colour tolerance |
| `Slopes.Slope` | x-detector.js:184-232 | span ≤ min(x, y, w-1-x, h-1-y); both arms are within tolerance of the centre at every step 1..span; step span+1 leaves the grid or fails; 0 on every border cell |
| `Slopes.SlopeUnique` | x-detector.js:184-232 | the three properties of `Slope` determine the span uniquely |
| `Slopes.ComputeSlope` | x-detector.js:184-232 | the source's while loop over four arm coordinates returns a span with the same properties, equal to `Slope` |
| `Slopes.SlopeMap` | x-detector.js:160-182 | both slope maps have the base map's shape and hold every cell's slope, between 0 and the distance to the edge |
| `Crossing.MatchingOppositeSlope` | x-detector.js:135-149 | 0 when the two cells differ in brightness; otherwise the larger of the two pairings, where a pairing contributes its shorter slope when within SLOPE_DIFF_TOLERANCE and 0 otherwise; with non-negative slopes, between 0 and the longer slope at either cell |
| `Crossing.MatchingSymmetric` | x-detector.js:135-149 | swapping the reference cell and the candidate cell leaves the score unchanged |
| `Crossing.MatchingAtCentre` | x-detector.js:118 | at the cell itself, the score is the cell's own positive and negative slopes, matched |
| `Crossing.CrossingScore` | x-detector.js:118-124 | the score is at least each of the five scores (centre, up, down, left, right) and equals one of them; every neighbour read is inside the grid |
| `Crossing.MaxSlopeMap` | x-detector.js:109-129 | same shape as the base map; a cell is defined exactly when `1 <= x <= w-3` and `1 <= y <= h-3`; each defined value is the crossing score and is at least the centre's own score |
| `Crossing.QuietCellCrossing` | x-detector.js:118-124 | a scored cell whose two diagonals both succeed at every step up to the nearest edge has a crossing score equal to its distance to that edge, whatever is drawn elsewhere on the map |
| `Crossing.CrossingBounds` | x-detector.js:118-124 | with non-negative slope maps, a crossing score is between 0 and the longer slope at the cell |
| `Crossing.CrossingMapNonNeg` | x-detector.js:109-129 | with non-negative slope maps, every defined crossing cell is non-negative |
| `Contrast.OffsetTermsVanish` | x-detector.js:40-43 | the four guarded terms at one offset sum to 0 exactly when every in-grid neighbour at that offset is within the dead zone |
| `Contrast.DNumberFrom` | x-detector.js:39-44 | the remaining loop iterations sum to 0 exactly when all their offsets are quiet |
| `Contrast.DNumber` | x-detector.js:36-47 | the contrast score is ≥ 0, and is 0 exactly when every in-grid neighbour within DIFF_DISTANCE on the same row or column is within DIFF_THRESHOLD of the cell |
| `Contrast.SelfComparisonsVanish` | x-detector.js:39-43 | the offset-0 comparisons of a cell with itself contribute 0 |
| `Contrast.DiffMap` | x-detector.js:19-33 | same shape as the base map; every cell holds the cell's contrast score and is ≥ 0 |
| `Contrast.DiffMapOfNarrowBand` | x-detector.js:19-53 | when all brightness levels fit in a band no wider than DIFF_THRESHOLD, the contrast map is zero everywhere |
| `Contrast.DiffMapOfUniform` | x-detector.js:19-47 | a uniform base map has a contrast map that is zero everywhere |
| `Fusion.ColumnSum` | x-detector.js:100-102 | a column segment's sum is defined exactly when all its cells are; non-negative cells give a non-negative sum |
| `Fusion.WindowSum` | x-detector.js:99-103 | a window's sum is defined exactly when all its cells are; non-negative cells give a non-negative sum |
| `Fusion.ClusterWeight` | x-detector.js:97-105 | the weight is defined (not NaN) exactly when every cell of the clipped half-open window is defined; it is ≥ 0 for non-negative maps |
| `Fusion.ClusterWeightOfConstant` | x-detector.js:97-105 | away from the edges, a constant window of value v has weight exactly v: the sum runs over (2R)^2 cells, not (2R+1)^2 |
| `Fusion.ArmSum` | x-detector.js:87-92 | the four directional sums are ≥ 0 for non-negative inputs, and are 0 when the crossing value is 0 or the contrast map is all zero; from offset 0 they are at least `4·min(crossing, contrast)` at the cell, and over offsets i..d at most `(d+1-i)·4·crossing` |
| `Fusion.ArmSumCoversOffset` | x-detector.js:87-92 | for non-negative inputs the sum is at least the four terms of any single offset within reach, so every axis neighbour's contrast feeds the score |
| `Fusion.Amplify` | x-detector.js:94 | amplifying and normalising keeps a non-negative sum non-negative and a zero sum zero; with weight 0 the result is the sum over `(d+1)^2`, and with a non-negative weight it is never below that |
| `Fusion.AmplifyMonotone` | x-detector.js:72-94 | a heavier cluster weight never lowers the fused value of a non-negative sum, and strictly raises that of a positive one |
| `Fusion.Intersection` | x-detector.js:76-95 | defined exactly when the crossing cell is defined and, for a non-zero INTERSECT_DISTANCE, the cluster weight is too; with INTERSECT_DISTANCE = 0, the smaller of the two maps at the cell; ≥ 0 on non-negative maps; 0 when the crossing value or the contrast map is 0 |
| `Fusion.IntersectionLowerBound` | x-detector.js:76-95 | with a non-zero INTERSECT_DISTANCE and non-negative maps, a defined fused value is at least the normalised terms of every offset within reach, at least `4·min(crossing, contrast)/(d+1)^2`, and positive when both the crossing value and the contrast at the cell are |
| `Fusion.IntersectMaps` | x-detector.js:55-69 | the fused map has the crossing map's shape, with every cell fused |
| `Selection.ConsiderStep` | x-detector.js:239-241 | one strict-`>` comparison keeps the scan's best as the first cell with the highest score seen so far |
| `Selection.ScanColumn` | x-detector.js:238-242 | the inner loop leaves the best of all cells up to the end of the column |
| `Selection.ScanFrom` | x-detector.js:237-243 | the outer loop leaves the best of every cell of the map |
| `Selection.FindMaxPoint` | x-detector.js:234-246 | the score is ≥ 0 and ≥ every defined cell; the result is (-1, -1, 0) exactly when no cell is positive; otherwise it is a defined cell holding the score, and every earlier cell in x-outer, y-inner order is strictly lower |
| `Detector.SaliencyMap` | x-detector.js:257-261 | the pipeline for one base map gives a fused map of the base map's shape |
| `Detector.SaliencyDefined` | x-detector.js:82-94 | a fused cell is defined only on cells the crossing map writes; with a non-zero INTERSECT_DISTANCE, exactly when the cell and its whole cluster window are such cells |
| `Detector.SaliencyDefinedAtDefaults` | x-detector.js:10-17 | with the source's constants, a fused cell is defined exactly when `3 <= x <= w-4` and `3 <= y <= h-4`, so no point nearer the edge can be reported |
| `Detector.DefaultWindowScored` | x-detector.js:97-105 | with cluster radius 2, a cell and its whole window are crossing-scored exactly when `3 <= x <= w-4` and `3 <= y <= h-4` |
| `Detector.SaliencyOfNarrowBand` | x-detector.js:255-261 | when all brightness levels fit within DIFF_THRESHOLD of each other, every fused cell is undefined or 0 |
| `Detector.SaliencyOfUniform` | x-detector.js:255-261 | on a uniform base map, every fused cell is undefined or 0 |
| `Detector.BestPoint` | x-detector.js:257-262 | the best point of one base map has a score ≥ 0 |
| `Detector.Candidates` | x-detector.js:254-262 | one best point per map, in input order, each with a score ≥ 0 |
| `Detector.SelectFrom` | x-detector.js:254-267 | the rest of the loop ends with the first candidate of highest score |
| `Detector.SelectBest` | x-detector.js:252-270 | no candidates: the sentinel; otherwise the first candidate of highest score |
| `Detector.FindXButton` | x-detector.js:251-270 | an empty list gives the sentinel (-1, -1, -1, -1); otherwise the index is in `[0, len)`, the score is ≥ every map's best score, the result is the winning map's best point, and every earlier map scores strictly lower |
| `Detector.FirstBestUnique` | x-detector.js:264 | at most one detection is the first best of a list |
| `Detector.DuplicateKeepsBest` | x-detector.js:264-266 | inserting a copy of a candidate right after itself keeps the winning point and score; only the index of a later winner moves up by one |
| `Detector.DuplicateMapKeepsResult` | x-detector.js:251-270 | feeding a base map twice in a row changes nothing but the index of a winner after the copy |
| `Detector.TwoIdenticalMaps` | x-detector.js:251-270 | two identical maps give the same result as the one map, with index 0 |
| `Detector.DetectionIsInterior` | x-detector.js:239 | a detection with a positive score lies on a cell the crossing map writes, never on the undefined border |

## Left out

- bot-common.js is not part of this model. It holds device gestures, sleeps, polling loops, text recognition and notifications, none of which computes anything here.
- The pixel sampling in `getBaseMapForRegion` is left out (x-detector.js:275-288). It builds the coordinate list, calls `getColors` and `intToRgb`, and reads the flat result back. The model takes the pixels as a grid of RGB triples. The read-back uses index `i*width + j` while the requests were laid out at `i*height + j`. That mismatch is not modelled.
- JavaScript floating point and NaN are not modelled bit for bit. Exact `real` arithmetic and an explicit `None` stand in for them.
- The detector does not in general report the centre of a short X drawn on a plain background, and nothing here proves that it does. A background cell's diagonals run unbroken to the nearest edge, so its crossing score is its distance to that edge (`Crossing.QuietCellCrossing`). On a large enough grid that is longer than the strokes of the X, so a background cell can outscore the X's centre. Where a particular X is reported depends on the concrete map, and that is not proved for any map.
- Module wiring, the `at` and `utils` imports, and `module.exports` are left out (x-detector.js:1-8, 297-299).
- Colour differences are taken between two brightness values, not two grid coordinates. Every caller in the source passes cells of one base map, and the model looks the cells up at the call site.
- Base maps with no columns, and ragged base maps, are excluded by a precondition (`IsBase`, `Detector.AllBase`). On a map with no columns the source throws when it reads `base[0].length` (x-detector.js:161). On a ragged map it reads `undefined` cells and computes NaN. Neither error path is modelled.

=== FILE: colour.dfy ===
/** Per-pixel colour arithmetic: the dead-zone colour difference every stage
    compares cells with, and the brightness quantisation that builds a base map. */
module Colour {
  import opened Numbers
  import opened Grids
  import opened Settings

  /** The difference between two brightness levels, with differences up to
      `diffThreshold` ignored: `max(T, |a - b|) - T`. */
  function ColorDifference(c: Config, a: int, b: int): (r: nat)
    ensures Abs(a - b) <= c.diffThreshold ==> r == 0
    ensures Abs(a - b) > c.diffThreshold ==> r + c.diffThreshold == Abs(a - b)
    ensures r <= Abs(a - b)
  {
    Max(c.diffThreshold, Abs(a - b)) - c.diffThreshold
  }

  /** The difference is zero exactly inside the dead zone, and does not
      depend on the order of the two cells. */
  lemma ColorDifferenceFacts(c: Config, a: int, b: int)
    ensures ColorDifference(c, a, b) == 0 <==> Abs(a - b) <= c.diffThreshold
    ensures ColorDifference(c, a, b) == ColorDifference(c, b, a)
    ensures ColorDifference(c, a, a) == 0
  {
  }

  /** Two levels are "near" when their difference stays within the colour tolerance. */
  predicate Near(c: Config, a: int, b: int) {
    ColorDifference(c, a, b) <= c.colorTolerance
  }

  type Byte = x: int | 0 <= x < 256

  datatype Rgb = Rgb(red: Byte, green: Byte, blue: Byte)

  /** The largest possible red + green + blue. */
  const MaxSum: nat := 255 * 3

  /** Brightness of one pixel: `Math.round((r + g + b) * L / 765)`, where
      `Math.round` rounds to the nearest integer and halves upward. */
  function Quantise(c: Config, p: Rgb): (q: nat)
    ensures q <= c.colorLevels
    ensures 2 * q * MaxSum <= 2 * (p.red + p.green + p.blue) * c.colorLevels + MaxSum
    ensures 2 * (p.red + p.green + p.blue) * c.colorLevels + MaxSum < 2 * (q + 1) * MaxSum
    ensures p.red + p.green + p.blue == 0 ==> q == 0
    ensures p.red + p.green + p.blue == MaxSum ==> q == c.colorLevels
  {
    var s := p.red + p.green + p.blue;
    var L := c.colorLevels;
    assert s * L <= MaxSum * L by {
      MulMonotone(s, MaxSum, L);
    }
    (2 * s * L + MaxSum) / (2 * MaxSum)
  }

  lemma MulMonotone(a: nat, b: nat, k: nat)
    requires a <= b
    ensures a * k <= b * k
  {
  }

  /** A base map built from a grid of pixels already laid out [x][y]. */
  function BuildBaseMap(c: Config, pixels: seq<seq<Rgb>>): (base: seq<seq<int>>)
    requires IsGrid(pixels)
    ensures HasShape(base, Width(pixels), Height(pixels))
    ensures forall x, y :: InGrid(pixels, x, y) ==> 0 <= base[x][y] <= c.colorLevels
    ensures forall x, y :: InGrid(pixels, x, y) ==> base[x][y] == Quantise(c, pixels[x][y])
  {
    seq(Width(pixels), x requires 0 <= x < Width(pixels) =>
      seq(Height(pixels), y requires 0 <= y < Height(pixels) => Quantise(c, pixels[x][y])))
  }
}

=== FILE: contrast.dfy ===
/** The local-contrast ("diff") map: for every cell, the dead-zone colour
    differences against the cells up to `diffDistance` away along each axis. */
module Contrast {
  import opened Numbers
  import opened Grids
  import opened Settings
  import opened Colour

  /** The four guarded terms computeDNumber adds at offset i. */
  function OffsetTerms(c: Config, base: seq<seq<int>>, x: int, y: int, i: nat): nat
    requires IsBase(base) && InGrid(base, x, y)
  {
    var v := base[x][y];
    (if x - i >= 0 then ColorDifference(c, v, base[x - i][y]) else 0)
    + (if x + i < Width(base) then ColorDifference(c, v, base[x + i][y]) else 0)
    + (if y - i >= 0 then ColorDifference(c, v, base[x][y - i]) else 0)
    + (if y + i < |base[x]| then ColorDifference(c, v, base[x][y + i]) else 0)
  }

  /** Every axis neighbour at offset i that lies in the grid is within the dead zone. */
  ghost predicate QuietAt(c: Config, base: seq<seq<int>>, x: int, y: int, i: nat)
    requires IsBase(base) && InGrid(base, x, y)
  {
    var v := base[x][y];
    && (x - i >= 0 ==> Abs(v - base[x - i][y]) <= c.diffThreshold)
    && (x + i < Width(base) ==> Abs(v - base[x + i][y]) <= c.diffThreshold)
    && (y - i >= 0 ==> Abs(v - base[x][y - i]) <= c.diffThreshold)
    && (y + i < Height(base) ==> Abs(v - base[x][y + i]) <= c.diffThreshold)
  }

  /** The offsets i..diffDistance of computeDNumber's loop. The sum vanishes
      exactly when every one of those offsets is quiet. */
  function DNumberFrom(c: Config, base: seq<seq<int>>, x: int, y: int, i: nat): (r: nat)
    requires IsBase(base) && InGrid(base, x, y)
    ensures r == 0 <==> forall j :: i <= j <= c.diffDistance ==> QuietAt(c, base, x, y, j)
    decreases c.diffDistance - i
  {
    if i > c.diffDistance then 0
    else
      OffsetTermsVanish(c, base, x, y, i);
      OffsetTerms(c, base, x, y, i) + DNumberFrom(c, base, x, y, i + 1)
  }

  lemma OffsetTermsVanish(c: Config, base: seq<seq<int>>, x: int, y: int, i: nat)
    requires IsBase(base) && InGrid(base, x, y)
    ensures OffsetTerms(c, base, x, y, i) == 0 <==> QuietAt(c, base, x, y, i)
  {
  }

  /** (ox, oy) lies on the same row or column as (x, y), at most diffDistance away. */
  predicate AxisNeighbour(c: Config, x: int, y: int, ox: int, oy: int) {
    (ox == x && Abs(oy - y) <= c.diffDistance) || (oy == y && Abs(ox - x) <= c.diffDistance)
  }

  /** computeDNumber: the contrast score of a cell. It is zero exactly when
      every axis neighbour within diffDistance is within the dead zone. */
  function DNumber(c: Config, base: seq<seq<int>>, x: int, y: int): (r: nat)
    requires IsBase(base) && InGrid(base, x, y)
    ensures r == 0 <==> forall ox, oy :: InGrid(base, ox, oy) && AxisNeighbour(c, x, y, ox, oy) ==>
                                          Abs(base[x][y] - base[ox][oy]) <= c.diffThreshold
  {
    QuietIff(c, base, x, y);
    DNumberFrom(c, base, x, y, 0)
  }

  lemma QuietIff(c: Config, base: seq<seq<int>>, x: int, y: int)
    requires IsBase(base) && InGrid(base, x, y)
    ensures (forall j :: 0 <= j <= c.diffDistance ==> QuietAt(c, base, x, y, j))
        <==> (forall ox, oy :: InGrid(base, ox, oy) && AxisNeighbour(c, x, y, ox, oy) ==>
                                Abs(base[x][y] - base[ox][oy]) <= c.diffThreshold)
  {
    if forall j :: 0 <= j <= c.diffDistance ==> QuietAt(c, base, x, y, j) {
      forall ox, oy | InGrid(base, ox, oy) && AxisNeighbour(c, x, y, ox, oy)
        ensures Abs(base[x][y] - base[ox][oy]) <= c.diffThreshold
      {
        if ox == x {
          assert QuietAt(c, base, x, y, Abs(oy - y));
        } else {
          assert QuietAt(c, base, x, y, Abs(ox - x));
        }
      }
    }
  }

  /** The offset-0 comparisons of a cell with itself contribute nothing. */
  lemma SelfComparisonsVanish(c: Config, base: seq<seq<int>>, x: int, y: int)
    requires IsBase(base) && InGrid(base, x, y)
    ensures OffsetTerms(c, base, x, y, 0) == 0
    ensures DNumber(c, base, x, y) == DNumberFrom(c, base, x, y, 1)
  {
  }

  /** generateDiffMap: the contrast score of every cell. */
  function DiffMap(c: Config, base: seq<seq<int>>): (m: seq<seq<int>>)
    requires IsBase(base)
    ensures HasShape(m, Width(base), Height(base))
    ensures forall x, y :: InGrid(base, x, y) ==> m[x][y] == DNumber(c, base, x, y)
    ensures NonNeg(m)
  {
    seq(Width(base), x requires 0 <= x < Width(base) =>
      seq(|base[x]|, y requires 0 <= y < |base[x]| => DNumber(c, base, x, y) as int))
  }

  /** When every brightness of the map lies in a band no wider than the dead
      zone (in particular on a uniform map), the whole contrast map is zero. */
  lemma DiffMapOfNarrowBand(c: Config, base: seq<seq<int>>, lo: int)
    requires IsBase(base)
    requires forall x, y :: InGrid(base, x, y) ==> lo <= base[x][y] <= lo + c.diffThreshold
    ensures AllZero(DiffMap(c, base))
  {
  }

  /** A uniform base map has no contrast anywhere. */
  lemma DiffMapOfUniform(c: Config, base: seq<seq<int>>)
    requires IsBase(base) && Uniform(base)
    ensures AllZero(DiffMap(c, base))
  {
  }
}

=== FILE: crossing.dfy ===
/** The crossing score: at a cell and its four axis neighbours, pair a
    positive slope with a negative slope of comparable length on cells of the
    same brightness, and keep the best pairing. */
module Crossing {
  import opened Numbers
  import opened Grids
  import opened Settings
  import opened Slopes

  /** A base map with its positive and negative slope maps, all of one shape. */
  ghost predicate SlopeMapsFor(base: seq<seq<int>>, pos: seq<seq<int>>, neg: seq<seq<int>>) {
    IsBase(base) && SameShape(base, pos) && SameShape(base, neg)
  }

  /** Two arms of comparable length contribute the shorter one; otherwise nothing. */
  function Pairing(c: Config, a: int, b: int): int {
    if Abs(a - b) <= c.slopeDiffTolerance then Min(a, b) else 0
  }

  /** findMatchingOppositeSlope: the positive slope at (x, y) against the
      negative slope at (ox, oy), and the other way round, on cells of the same
      brightness only. */
  function MatchingOppositeSlope(c: Config, base: seq<seq<int>>, pos: seq<seq<int>>, neg: seq<seq<int>>,
                                 x: int, y: int, ox: int, oy: int): (r: int)
    requires SlopeMapsFor(base, pos, neg)
    requires InGrid(base, x, y) && InGrid(base, ox, oy)
    ensures base[x][y] != base[ox][oy] ==> r == 0
    ensures base[x][y] == base[ox][oy] ==>
              r >= Pairing(c, pos[x][y], neg[ox][oy]) && r >= Pairing(c, neg[x][y], pos[ox][oy])
              && (r == Pairing(c, pos[x][y], neg[ox][oy]) || r == Pairing(c, neg[x][y], pos[ox][oy]))
    ensures 0 <= pos[x][y] && 0 <= neg[x][y] && 0 <= pos[ox][oy] && 0 <= neg[ox][oy] ==>
              0 <= r <= Max(pos[x][y], neg[x][y]) && r <= Max(pos[ox][oy], neg[ox][oy])
  {
    if base[x][y] == base[ox][oy] then
      var posNeg := if Abs(pos[x][y] - neg[ox][oy]) <= c.slopeDiffTolerance then Min(pos[x][y], neg[ox][oy]) else 0;
      var negPos := if Abs(neg[x][y] - pos[ox][oy]) <= c.slopeDiffTolerance then Min(neg[x][y], pos[ox][oy]) else 0;
      Max(posNeg, negPos)
    else
      0
  }

  /** Exchanging the reference cell and the candidate cell does not change the score. */
  lemma MatchingSymmetric(c: Config, base: seq<seq<int>>, pos: seq<seq<int>>, neg: seq<seq<int>>,
                          x: int, y: int, ox: int, oy: int)
    requires SlopeMapsFor(base, pos, neg)
    requires InGrid(base, x, y) && InGrid(base, ox, oy)
    ensures MatchingOppositeSlope(c, base, pos, neg, x, y, ox, oy)
         == MatchingOppositeSlope(c, base, pos, neg, ox, oy, x, y)
  {
  }

  /** At the cell itself both pairings coincide: the score is the cell's own
      positive and negative slopes, matched. */
  lemma MatchingAtCentre(c: Config, base: seq<seq<int>>, pos: seq<seq<int>>, neg: seq<seq<int>>, x: int, y: int)
    requires SlopeMapsFor(base, pos, neg)
    requires InGrid(base, x, y)
    ensures MatchingOppositeSlope(c, base, pos, neg, x, y, x, y) == Pairing(c, pos[x][y], neg[x][y])
  {
  }

  /** The five scores the crossing map takes the maximum of; the neighbours
      read are inside the grid as soon as the cell is off the border. */
  function CrossingScore(c: Config, base: seq<seq<int>>, pos: seq<seq<int>>, neg: seq<seq<int>>, x: int, y: int): (r: int)
    requires SlopeMapsFor(base, pos, neg)
    requires 1 <= x < Width(base) - 1 && 1 <= y < Height(base) - 1
    ensures r >= MatchingOppositeSlope(c, base, pos, neg, x, y, x, y)
    ensures r >= MatchingOppositeSlope(c, base, pos, neg, x, y, x, y - 1)
    ensures r >= MatchingOppositeSlope(c, base, pos, neg, x, y, x, y + 1)
    ensures r >= MatchingOppositeSlope(c, base, pos, neg, x, y, x - 1, y)
    ensures r >= MatchingOppositeSlope(c, base, pos, neg, x, y, x + 1, y)
    ensures r == MatchingOppositeSlope(c, base, pos, neg, x, y, x, y)
         || r == MatchingOppositeSlope(c, base, pos, neg, x, y, x, y - 1)
         || r == MatchingOppositeSlope(c, base, pos, neg, x, y, x, y + 1)
         || r == MatchingOppositeSlope(c, base, pos, neg, x, y, x - 1, y)
         || r == MatchingOppositeSlope(c, base, pos, neg, x, y, x + 1, y)
  {
    var center := MatchingOppositeSlope(c, base, pos, neg, x, y, x, y);
    var up := MatchingOppositeSlope(c, base, pos, neg, x, y, x, y - 1);
    var down := MatchingOppositeSlope(c, base, pos, neg, x, y, x, y + 1);
    var left := MatchingOppositeSlope(c, base, pos, neg, x, y, x - 1, y);
    var right := MatchingOppositeSlope(c, base, pos, neg, x, y, x + 1, y);
    Max(Max(Max(Max(center, up), down), left), right)
  }

  /** The cells computeMaxSlopeMap writes: one cell in from the near edges,
      two cells in from the far edges. */
  predicate Scored(base: seq<seq<int>>, x: int, y: int) {
    1 <= x <= Width(base) - 3 && 1 <= y <= Height(base) - 3
  }

  /** computeMaxSlopeMap: the crossing score on the scored cells, and
      undefined everywhere else. */
  function MaxSlopeMap(c: Config, base: seq<seq<int>>, pos: seq<seq<int>>, neg: seq<seq<int>>): (m: seq<seq<Option<int>>>)
    requires SlopeMapsFor(base, pos, neg)
    ensures HasShape(m, Width(base), Height(base))
    ensures forall x, y :: InGrid(base, x, y) ==> (m[x][y].Some? <==> Scored(base, x, y))
    ensures forall x, y :: Scored(base, x, y) ==> m[x][y] == Some(CrossingScore(c, base, pos, neg, x, y))
    ensures forall x, y :: Scored(base, x, y) ==>
              m[x][y].value >= MatchingOppositeSlope(c, base, pos, neg, x, y, x, y)
  {
    seq(Width(base), x requires 0 <= x < Width(base) =>
      seq(Height(base), y requires 0 <= y < Height(base) =>
        if Scored(base, x, y) then Some(CrossingScore(c, base, pos, neg, x, y)) else None))
  }

  /** With non-negative slope maps every defined crossing score is non-negative
      and at most the longer of the cell's own two slopes: every pairing takes
      a minimum that includes a slope at the cell itself. */
  lemma CrossingBounds(c: Config, base: seq<seq<int>>, pos: seq<seq<int>>, neg: seq<seq<int>>, x: int, y: int)
    requires SlopeMapsFor(base, pos, neg) && NonNeg(pos) && NonNeg(neg)
    requires Scored(base, x, y)
    ensures 0 <= CrossingScore(c, base, pos, neg, x, y) <= Max(pos[x][y], neg[x][y])
  {
  }

  /** A scored cell whose diagonals both run unbroken to the nearest edge
      scores exactly its distance to that edge. A cell of plain background
      is such a cell, so its score grows with the grid rather than with any
      stroke drawn on it. */
  lemma QuietCellCrossing(c: Config, base: seq<seq<int>>, x: int, y: int)
    requires IsBase(base) && Scored(base, x, y)
    requires forall s :: 1 <= s <= Reach(base, x, y) ==> Succeeds(c, base, Positive, x, y, s)
    requires forall s :: 1 <= s <= Reach(base, x, y) ==> Succeeds(c, base, Negative, x, y, s)
    ensures CrossingScore(c, base, SlopeMap(c, base, Positive), SlopeMap(c, base, Negative), x, y)
         == Reach(base, x, y)
  {
    var pos := SlopeMap(c, base, Positive);
    var neg := SlopeMap(c, base, Negative);
    SlopeUnique(c, base, Positive, x, y, Reach(base, x, y));
    SlopeUnique(c, base, Negative, x, y, Reach(base, x, y));
    MatchingAtCentre(c, base, pos, neg, x, y);
    CrossingBounds(c, base, pos, neg, x, y);
  }

  /** With non-negative slope maps the crossing map has no negative defined cell. */
  lemma CrossingMapNonNeg(c: Config, base: seq<seq<int>>, pos: seq<seq<int>>, neg: seq<seq<int>>)
    requires SlopeMapsFor(base, pos, neg) && NonNeg(pos) && NonNeg(neg)
    ensures DefinedNonNeg(MaxSlopeMap(c, base, pos, neg))
  {
  }
}

=== FILE: detector.dfy ===
/** findXButton: run the whole pipeline on every base map and keep the
    first map whose best point scores highest. */
module Detector {
  import opened Grids
  import opened Settings
  import opened Slopes
  import opened Crossing
  import opened Contrast
  import opened Fusion
  import opened Selection

  /** The fused saliency map of one base map: slope maps, crossing map,
      contrast map, then their intersection. */
  function SaliencyMap(c: Config, base: seq<seq<int>>): (m: seq<seq<Option<real>>>)
    requires Valid(c) && IsBase(base)
    ensures HasShape(m, Width(base), Height(base))
  {
    var pos := SlopeMap(c, base, Positive);
    var neg := SlopeMap(c, base, Negative);
    var crossing := MaxSlopeMap(c, base, pos, neg);
    var diff := DiffMap(c, base);
    IntersectMaps(c, crossing, diff)
  }

  /** A fused cell is defined only on the cells the crossing map scores; when
      the fusion looks beyond the cell itself it also needs every cell of the
      cluster window to be scored, so the undefined border spreads inward. */
  lemma SaliencyDefined(c: Config, base: seq<seq<int>>, x: int, y: int)
    requires Valid(c) && IsBase(base) && InGrid(base, x, y)
    ensures SaliencyMap(c, base)[x][y].Some? ==> Scored(base, x, y)
    ensures c.intersectDistance == 0 ==> (SaliencyMap(c, base)[x][y].Some? <==> Scored(base, x, y))
    ensures c.intersectDistance > 0 ==>
              (SaliencyMap(c, base)[x][y].Some? <==>
                 Scored(base, x, y) && forall p, q :: InWindow(c, base, x, y, p, q) ==> Scored(base, p, q))
  {
    var pos := SlopeMap(c, base, Positive);
    var neg := SlopeMap(c, base, Negative);
    var crossing := MaxSlopeMap(c, base, pos, neg);
    var diff := DiffMap(c, base);
    assert SaliencyMap(c, base)[x][y] == Intersection(c, crossing, diff, x, y);
    WindowScored(c, base, crossing, x, y);
  }

  /** With the source's own constants (intersect distance 6, cluster radius 2)
      the undefined border is three cells deep on the low side and four on
      the high side, so no point nearer the edge can ever be reported. */
  lemma SaliencyDefinedAtDefaults(base: seq<seq<int>>, x: int, y: int)
    requires IsBase(base) && InGrid(base, x, y)
    ensures SaliencyMap(Defaults, base)[x][y].Some? <==>
              3 <= x <= Width(base) - 4 && 3 <= y <= Height(base) - 4
  {
    SaliencyDefined(Defaults, base, x, y);
    DefaultWindowScored(base, x, y);
  }

  /** The cluster window of radius 2 lies among the scored cells exactly
      three cells in from the low edges and four from the high ones. */
  lemma DefaultWindowScored(base: seq<seq<int>>, x: int, y: int)
    requires IsBase(base) && InGrid(base, x, y)
    ensures (Scored(base, x, y) && forall p, q :: InWindow(Defaults, base, x, y, p, q) ==> Scored(base, p, q))
        <==> 3 <= x <= Width(base) - 4 && 3 <= y <= Height(base) - 4
  {
    if Scored(base, x, y) && forall p, q :: InWindow(Defaults, base, x, y, p, q) ==> Scored(base, p, q) {
      assert InWindow(Defaults, base, x, y, if x >= 2 then x - 2 else 0, if y >= 2 then y - 2 else 0);
      assert InWindow(Defaults, base, x, y, x + 1, y + 1);
    }
  }

  /** A window of the crossing map is fully defined exactly when it lies
      among the scored cells. */
  lemma WindowScored(c: Config, base: seq<seq<int>>, crossing: seq<seq<Option<int>>>, x: int, y: int)
    requires IsBase(base) && HasShape(crossing, Width(base), Height(base)) && InGrid(base, x, y)
    requires forall p, q :: InGrid(base, p, q) ==> (crossing[p][q].Some? <==> Scored(base, p, q))
    ensures (forall p, q :: InWindow(c, crossing, x, y, p, q) ==> crossing[p][q].Some?)
        <==> (forall p, q :: InWindow(c, base, x, y, p, q) ==> Scored(base, p, q))
  {
  }

  /** When every brightness lies in a band no wider than the dead zone, in
      particular on a uniform map, there is no contrast, and every defined
      fused cell is zero. */
  lemma SaliencyOfNarrowBand(c: Config, base: seq<seq<int>>, lo: int)
    requires Valid(c) && IsBase(base)
    requires forall x, y :: InGrid(base, x, y) ==> lo <= base[x][y] <= lo + c.diffThreshold
    ensures forall x, y :: InGrid(base, x, y) ==> SaliencyMap(c, base)[x][y] in {None, Some(0.0)}
  {
    var pos := SlopeMap(c, base, Positive);
    var neg := SlopeMap(c, base, Negative);
    var crossing := MaxSlopeMap(c, base, pos, neg);
    var diff := DiffMap(c, base);
    DiffMapOfNarrowBand(c, base, lo);
    CrossingMapNonNeg(c, base, pos, neg);
    forall x, y | InGrid(base, x, y)
      ensures SaliencyMap(c, base)[x][y] in {None, Some(0.0)}
    {
      assert SaliencyMap(c, base)[x][y] == Intersection(c, crossing, diff, x, y);
    }
  }

  lemma SaliencyOfUniform(c: Config, base: seq<seq<int>>)
    requires Valid(c) && IsBase(base) && Uniform(base)
    ensures forall x, y :: InGrid(base, x, y) ==> SaliencyMap(c, base)[x][y] in {None, Some(0.0)}
  {
    SaliencyOfNarrowBand(c, base, base[0][0]);
  }

  datatype Detection = Detection(n: int, x: int, y: int, score: real)

  /** The starting value of findXButton, returned when there is no map. */
  const NoDetection := Detection(-1, -1, -1, -1.0)

  ghost predicate AllBase(maps: seq<seq<seq<int>>>) {
    forall k :: 0 <= k < |maps| ==> IsBase(maps[k])
  }

  /** The best point of one base map: findMaxPoint over its fused map. */
  function BestPoint(c: Config, base: seq<seq<int>>): (p: Point)
    requires Valid(c) && IsBase(base)
    ensures p.score >= 0.0
  {
    FindMaxPoint(SaliencyMap(c, base))
  }

  /** The best point of every map, in input order. */
  function Candidates(c: Config, maps: seq<seq<seq<int>>>): (points: seq<Point>)
    requires Valid(c) && AllBase(maps)
    ensures |points| == |maps|
    ensures forall k :: 0 <= k < |maps| ==> points[k] == BestPoint(c, maps[k])
    ensures AllNonNeg(points)
  {
    seq(|maps|, k requires 0 <= k < |maps| => BestPoint(c, maps[k]))
  }

  function Tag(n: int, p: Point): Detection {
    Detection(n, p.x, p.y, p.score)
  }

  /** r is the first of points[..i] whose score is the highest among them. */
  ghost predicate FirstBestAmong(points: seq<Point>, r: Detection, i: int)
    requires 0 <= i <= |points|
  {
    && 0 <= r.n < i && r == Tag(r.n, points[r.n])
    && (forall k :: 0 <= k < i ==> points[k].score <= r.score)
    && (forall k :: 0 <= k < r.n ==> points[k].score < r.score)
  }

  ghost predicate IsFirstBest(points: seq<Point>, r: Detection) {
    FirstBestAmong(points, r, |points|)
  }

  ghost predicate AllNonNeg(points: seq<Point>) {
    forall k :: 0 <= k < |points| ==> points[k].score >= 0.0
  }

  /** One step of findXButton's loop: a strictly better map takes over. */
  function Offer(best: Detection, i: int, p: Point): Detection {
    if p.score > best.score then Tag(i, p) else best
  }

  function SelectFrom(points: seq<Point>, i: int, best: Detection): (r: Detection)
    requires AllNonNeg(points) && 0 <= i <= |points|
    requires if i == 0 then best == NoDetection else FirstBestAmong(points, best, i)
    ensures if |points| == 0 then r == NoDetection else IsFirstBest(points, r)
    decreases |points| - i
  {
    if i == |points| then best else SelectFrom(points, i + 1, Offer(best, i, points[i]))
  }

  /** The selection over the candidates: the sentinel on an empty list,
      otherwise the first candidate of highest score. */
  function SelectBest(points: seq<Point>): (r: Detection)
    requires AllNonNeg(points)
    ensures |points| == 0 ==> r == NoDetection
    ensures |points| > 0 ==> IsFirstBest(points, r)
  {
    SelectFrom(points, 0, NoDetection)
  }

  /** findXButton. No map: the sentinel. Otherwise the map index is a real
      index, the score is at least every map's best score, and it is the
      best point of the first map reaching that score. */
  function FindXButton(c: Config, maps: seq<seq<seq<int>>>): (r: Detection)
    requires Valid(c) && AllBase(maps)
    ensures |maps| == 0 ==> r == NoDetection
    ensures |maps| > 0 ==> 0 <= r.n < |maps| && r.score >= 0.0
    ensures |maps| > 0 ==> IsFirstBest(Candidates(c, maps), r)
  {
    SelectBest(Candidates(c, maps))
  }

  /** The first-best detection of a list is unique. */
  lemma FirstBestUnique(points: seq<Point>, r1: Detection, r2: Detection)
    requires IsFirstBest(points, r1) && IsFirstBest(points, r2)
    ensures r1 == r2
  {
  }

  /** The list with a second copy of entry k right after it. */
  function Duplicate<T>(s: seq<T>, k: int): (d: seq<T>)
    requires 0 <= k < |s|
    ensures |d| == |s| + 1
    ensures forall j :: 0 <= j <= k ==> d[j] == s[j]
    ensures forall j :: k < j < |d| ==> d[j] == s[j - 1]
  {
    s[..k + 1] + [s[k]] + s[k + 1..]
  }

  /** Where the winner of a list sits after entry k is duplicated. */
  function Shifted(r: Detection, k: int): Detection {
    if r.n <= k then r else r.(n := r.n + 1)
  }

  /** Inserting a copy of candidate k right after it keeps the winning point
      and score; only the index of a later winner moves up by one. */
  lemma DuplicateKeepsBest(points: seq<Point>, dup: seq<Point>, k: int)
    requires AllNonNeg(points) && 0 <= k < |points|
    requires |dup| == |points| + 1
    requires forall j :: 0 <= j <= k ==> dup[j] == points[j]
    requires forall j :: k < j < |dup| ==> dup[j] == points[j - 1]
    ensures AllNonNeg(dup)
    ensures SelectBest(dup) == Shifted(SelectBest(points), k)
  {
    var r := SelectBest(points);
    var r' := Shifted(r, k);
    assert dup[r'.n] == points[r.n];
    forall j | 0 <= j < |dup|
      ensures dup[j].score <= r'.score
      ensures j < r'.n ==> dup[j].score < r'.score
    {
      if j <= k {
        assert dup[j] == points[j];
      } else {
        assert dup[j] == points[j - 1];
      }
    }
    assert IsFirstBest(dup, r');
    FirstBestUnique(dup, SelectBest(dup), r');
  }

  /** Feeding a map twice in a row never changes which point wins: only the
      index of a winner after the copy moves up by one. */
  lemma DuplicateMapKeepsResult(c: Config, maps: seq<seq<seq<int>>>, k: int)
    requires Valid(c) && AllBase(maps) && 0 <= k < |maps|
    ensures AllBase(Duplicate(maps, k))
    ensures FindXButton(c, Duplicate(maps, k)) == Shifted(FindXButton(c, maps), k)
  {
    var dup := Duplicate(maps, k);
    var points := Candidates(c, maps);
    var points' := Candidates(c, dup);
    assert forall j :: 0 <= j <= k ==> points'[j] == points[j];
    assert forall j :: k < j < |points'| ==> points'[j] == points[j - 1];
    DuplicateKeepsBest(points, points', k);
  }

  /** Two identical maps give what the single map gives, with index 0. */
  lemma TwoIdenticalMaps(c: Config, base: seq<seq<int>>)
    requires Valid(c) && IsBase(base)
    ensures AllBase([base]) && AllBase([base, base])
    ensures FindXButton(c, [base, base]) == FindXButton(c, [base])
    ensures FindXButton(c, [base]).n == 0
  {
    assert Duplicate([base], 0) == [base, base];
    DuplicateMapKeepsResult(c, [base], 0);
  }

  /** A positive detection always lies on a cell the crossing map scores,
      never on the undefined border. */
  lemma DetectionIsInterior(c: Config, maps: seq<seq<seq<int>>>)
    requires Valid(c) && AllBase(maps)
    ensures var r := FindXButton(c, maps);
            r.score > 0.0 ==> Scored(maps[r.n], r.x, r.y)
  {
  }
}

=== FILE: fusion.dfy ===
/** The saliency fusion: combine the crossing map (cells that may be
    undefined) with the contrast map, weighted by the density of crossing
    scores around the cell. Arithmetic is exact on `real`; an undefined cell
    anywhere in a computation makes its result undefined, as NaN does. */
module Fusion {
  import opened Numbers
  import opened Grids
  import opened Settings

  /** Addition in which an undefined operand poisons the sum. */
  function AddCell(a: Option<int>, b: Option<int>): Option<int> {
    if a.Some? && b.Some? then Some(a.value + b.value) else None
  }

  /** The cells (x, j)..(x, j1-1) of one column, added up. */
  function ColumnSum(m: seq<seq<Option<int>>>, x: int, j: int, j1: int): (s: Option<int>)
    requires 0 <= x < |m| && 0 <= j <= j1 <= |m[x]|
    ensures s.Some? <==> forall q :: j <= q < j1 ==> m[x][q].Some?
    ensures DefinedNonNeg(m) && s.Some? ==> s.value >= 0
    decreases j1 - j
  {
    if j == j1 then Some(0) else AddCell(m[x][j], ColumnSum(m, x, j + 1, j1))
  }

  /** The cells of columns i..i1-1 and rows j0..j1-1, added up. */
  function WindowSum(m: seq<seq<Option<int>>>, i: int, i1: int, j0: int, j1: int): (s: Option<int>)
    requires IsGrid(m) && 0 <= i <= i1 <= |m| && 0 <= j0 <= j1 <= Height(m)
    ensures s.Some? <==> forall p, q :: i <= p < i1 && j0 <= q < j1 ==> m[p][q].Some?
    ensures DefinedNonNeg(m) && s.Some? ==> s.value >= 0
    decreases i1 - i
  {
    if i == i1 then Some(0) else AddCell(ColumnSum(m, i, j0, j1), WindowSum(m, i + 1, i1, j0, j1))
  }

  /** The half-open window [x-R, x+R) x [y-R, y+R) clipped to the grid. */
  predicate InWindow<T>(c: Config, m: seq<seq<T>>, x: int, y: int, p: int, q: int) {
    var r := c.clusterRadius;
    Max(0, x - r) <= p < Min(Width(m), x + r) && Max(0, y - r) <= q < Min(Height(m), y + r)
  }

  /** The nominal area the window sum is divided by: (2R)^2, or 1 when R is 0. */
  function Area(c: Config): nat {
    Max(1, 2 * c.clusterRadius) * Max(1, 2 * c.clusterRadius)
  }

  /** getClusterWeight: the window sum over the nominal area. It is defined
      exactly when every cell of the window is. */
  function ClusterWeight(c: Config, m: seq<seq<Option<int>>>, x: int, y: int): (w: Option<real>)
    requires IsGrid(m) && InGrid(m, x, y)
    ensures w.Some? <==> forall p, q :: InWindow(c, m, x, y, p, q) ==> m[p][q].Some?
    ensures DefinedNonNeg(m) && w.Some? ==> w.value >= 0.0
  {
    var r := c.clusterRadius;
    var s := WindowSum(m, Max(0, x - r), Min(Width(m), x + r), Max(0, y - r), Min(Height(m), y + r));
    if s.Some? then Some(s.value as real / Area(c) as real) else None
  }

  lemma ColumnSumOfConstant(m: seq<seq<Option<int>>>, x: int, j: int, j1: int, v: int)
    requires 0 <= x < |m| && 0 <= j <= j1 <= |m[x]|
    requires forall q :: j <= q < j1 ==> m[x][q] == Some(v)
    ensures ColumnSum(m, x, j, j1) == Some((j1 - j) * v)
    decreases j1 - j
  {
    if j < j1 {
      ColumnSumOfConstant(m, x, j + 1, j1, v);
    }
  }

  lemma {:induction false} WindowSumOfConstant(m: seq<seq<Option<int>>>, i: int, i1: int, j0: int, j1: int, v: int)
    requires IsGrid(m) && 0 <= i <= i1 <= |m| && 0 <= j0 <= j1 <= Height(m)
    requires forall p, q :: i <= p < i1 && j0 <= q < j1 ==> m[p][q] == Some(v)
    ensures WindowSum(m, i, i1, j0, j1) == Some((i1 - i) * ((j1 - j0) * v))
    decreases i1 - i
  {
    if i < i1 {
      ColumnSumOfConstant(m, i, j0, j1, v);
      WindowSumOfConstant(m, i + 1, i1, j0, j1, v);
      assert (i1 - i) * ((j1 - j0) * v) == (j1 - j0) * v + (i1 - (i + 1)) * ((j1 - j0) * v);
    }
  }

  /** Away from the grid edge the window holds exactly (2R)^2 cells, so the
      cluster weight of a constant neighbourhood is that constant: the weight
      is a true average over the half-open 2R-square. */
  lemma ClusterWeightOfConstant(c: Config, m: seq<seq<Option<int>>>, x: int, y: int, v: int)
    requires IsGrid(m) && InGrid(m, x, y) && c.clusterRadius >= 1
    requires c.clusterRadius <= x && x + c.clusterRadius <= Width(m)
    requires c.clusterRadius <= y && y + c.clusterRadius <= Height(m)
    requires forall p, q :: InWindow(c, m, x, y, p, q) ==> m[p][q] == Some(v)
    ensures ClusterWeight(c, m, x, y) == Some(v as real)
  {
    var r := c.clusterRadius;
    WindowSumOfConstant(m, x - r, x + r, y - r, y + r, v);
    var n := 2 * r;
    assert Area(c) == n * n;
    assert (x + r - (x - r)) * ((y + r - (y - r)) * v) == n * (n * v);
    assert (n * (n * v)) as real / (n * n) as real == v as real by {
      assert (n * (n * v)) as real == (n * n) as real * v as real;
    }
  }

  /** The four guarded terms computeIntersection adds at offset i: the
      centre's crossing value against the contrast of each axis neighbour. */
  function ArmTerms(xv: int, ymap: seq<seq<int>>, x: int, y: int, i: nat): int
    requires IsGrid(ymap) && InGrid(ymap, x, y)
  {
    (if x - i >= 0 then Min(xv, ymap[x - i][y]) else 0)
    + (if x + i < Width(ymap) then Min(xv, ymap[x + i][y]) else 0)
    + (if y - i >= 0 then Min(xv, ymap[x][y - i]) else 0)
    + (if y + i < |ymap[x]| then Min(xv, ymap[x][y + i]) else 0)
  }

  /** up + down + left + right of computeIntersection, over offsets i..d. */
  function ArmSum(xv: int, ymap: seq<seq<int>>, x: int, y: int, i: nat, d: nat): (s: int)
    requires IsGrid(ymap) && InGrid(ymap, x, y)
    ensures xv >= 0 && NonNeg(ymap) ==> s >= 0
    ensures xv == 0 && NonNeg(ymap) ==> s == 0
    ensures xv >= 0 && AllZero(ymap) ==> s == 0
    ensures xv >= 0 && NonNeg(ymap) && i == 0 ==> s >= 4 * Min(xv, ymap[x][y])
    ensures xv >= 0 && i <= d + 1 ==> s <= (d + 1 - i) * (4 * xv)
    decreases d - i
  {
    if i > d then 0
    else
      var rest := ArmSum(xv, ymap, x, y, i + 1, d);
      assert ArmTerms(xv, ymap, x, y, i) <= 4 * xv || xv < 0;
      assert (d + 1 - i) * (4 * xv) == 4 * xv + (d + 1 - (i + 1)) * (4 * xv);
      ArmTerms(xv, ymap, x, y, i) + rest
  }

  /** computeIntersection. With intersectDistance 0 it is the smaller of the
      two maps at the cell; otherwise the arm sum, amplified by the cluster
      weight and normalised by (d+1)^2. Undefined (NaN) exactly when the
      crossing cell is, or when a used cluster weight is. */
  function Intersection(c: Config, xmap: seq<seq<Option<int>>>, ymap: seq<seq<int>>, x: int, y: int): (r: Option<real>)
    requires Valid(c) && SameShape(xmap, ymap) && InGrid(xmap, x, y)
    ensures r.Some? <==> xmap[x][y].Some? && (c.intersectDistance == 0 || ClusterWeight(c, xmap, x, y).Some?)
    ensures c.intersectDistance == 0 && xmap[x][y].Some? ==> r == Some(Min(xmap[x][y].value, ymap[x][y]) as real)
    ensures r.Some? && DefinedNonNeg(xmap) && NonNeg(ymap) ==> r.value >= 0.0
    ensures r.Some? && xmap[x][y] == Some(0) && NonNeg(ymap) ==> r.value == 0.0
    ensures r.Some? && DefinedNonNeg(xmap) && AllZero(ymap) ==> r.value == 0.0
  {
    var clusterWeight := ClusterWeight(c, xmap, x, y);
    if c.intersectDistance == 0 then
      if xmap[x][y].Some? then Some(Min(xmap[x][y].value, ymap[x][y]) as real) else None
    else if xmap[x][y].None? || clusterWeight.None? then
      None
    else
      var s := ArmSum(xmap[x][y].value, ymap, x, y, 0, c.intersectDistance);
      Some(Amplify(c, s, clusterWeight.value))
  }

  /** The arm sum over offsets i..d is at least the four terms at any one of
      those offsets: the contrast of every axis neighbour within reach feeds it. */
  lemma {:induction false} ArmSumCoversOffset(xv: int, ymap: seq<seq<int>>, x: int, y: int, i: nat, j: nat, d: nat)
    requires IsGrid(ymap) && InGrid(ymap, x, y)
    requires xv >= 0 && NonNeg(ymap) && i <= j <= d
    ensures ArmSum(xv, ymap, x, y, i, d) >= ArmTerms(xv, ymap, x, y, j)
    decreases j - i
  {
    if i < j {
      ArmSumCoversOffset(xv, ymap, x, y, i + 1, j, d);
    }
  }

  /** With a non-zero intersect distance the fused score is at least the
      normalised terms of every offset within reach; in particular it is at
      least 4 min(crossing, contrast) / (d+1)^2, so it is positive whenever
      the cell has both a crossing score and contrast. */
  lemma IntersectionLowerBound(c: Config, xmap: seq<seq<Option<int>>>, ymap: seq<seq<int>>, x: int, y: int, i: nat)
    requires Valid(c) && SameShape(xmap, ymap) && InGrid(xmap, x, y)
    requires DefinedNonNeg(xmap) && NonNeg(ymap) && 0 < c.intersectDistance && i <= c.intersectDistance
    requires Intersection(c, xmap, ymap, x, y).Some?
    ensures var area := ((c.intersectDistance + 1) * (c.intersectDistance + 1)) as real;
            Intersection(c, xmap, ymap, x, y).value >= ArmTerms(xmap[x][y].value, ymap, x, y, i) as real / area
    ensures var area := ((c.intersectDistance + 1) * (c.intersectDistance + 1)) as real;
            Intersection(c, xmap, ymap, x, y).value >= (4 * Min(xmap[x][y].value, ymap[x][y])) as real / area
    ensures Min(xmap[x][y].value, ymap[x][y]) > 0 ==> Intersection(c, xmap, ymap, x, y).value > 0.0
  {
    var xv := xmap[x][y].value;
    var d := c.intersectDistance;
    var s := ArmSum(xv, ymap, x, y, 0, d);
    var w := ClusterWeight(c, xmap, x, y).value;
    var area := ((d + 1) * (d + 1)) as real;
    assert Intersection(c, xmap, ymap, x, y).value == Amplify(c, s, w);
    assert Amplify(c, s, w) >= s as real / area;
    ArmSumCoversOffset(xv, ymap, x, y, 0, i, d);
    NormaliseMonotone(ArmTerms(xv, ymap, x, y, i), s, d);
    NormaliseMonotone(4 * Min(xv, ymap[x][y]), s, d);
  }

  /** Dividing by (d+1)^2 keeps the order of two sums. */
  lemma NormaliseMonotone(a: int, b: int, d: nat)
    ensures a <= b ==> a as real / ((d + 1) * (d + 1)) as real <= b as real / ((d + 1) * (d + 1)) as real
    ensures a > 0 ==> a as real / ((d + 1) * (d + 1)) as real > 0.0
  {
  }

  /** The last line of computeIntersection: the arm sum s times
      (1 + weight * 2 / L), divided by (d+1)^2. */
  function Amplify(c: Config, s: int, weight: real): (r: real)
    requires Valid(c)
    ensures s >= 0 && weight >= 0.0 ==> r >= 0.0
    ensures s == 0 ==> r == 0.0
    ensures weight == 0.0 ==> r == s as real / ((c.intersectDistance + 1) * (c.intersectDistance + 1)) as real
    ensures s >= 0 && weight >= 0.0 ==>
              r >= s as real / ((c.intersectDistance + 1) * (c.intersectDistance + 1)) as real
  {
    var d := c.intersectDistance;
    var factor := 1.0 + weight * 2.0 / c.colorLevels as real;
    var area := ((d + 1) * (d + 1)) as real;
    assert weight >= 0.0 ==> factor >= 1.0 by {
      if weight >= 0.0 {
        assert weight * 2.0 / c.colorLevels as real >= 0.0;
      }
    }
    assert area > 0.0;
    s as real * factor / area
  }

  /** A denser cluster never lowers the fused score, and raises a positive one. */
  lemma AmplifyMonotone(c: Config, s: int, w1: real, w2: real)
    requires Valid(c) && s >= 0 && 0.0 <= w1 <= w2
    ensures Amplify(c, s, w1) <= Amplify(c, s, w2)
    ensures s > 0 && w1 < w2 ==> Amplify(c, s, w1) < Amplify(c, s, w2)
  {
  }

  /** intersectMaps: the fused score of every cell. */
  function IntersectMaps(c: Config, xmap: seq<seq<Option<int>>>, ymap: seq<seq<int>>): (m: seq<seq<Option<real>>>)
    requires Valid(c) && SameShape(xmap, ymap)
    ensures HasShape(m, Width(xmap), Height(xmap))
    ensures forall x, y :: InGrid(xmap, x, y) ==> m[x][y] == Intersection(c, xmap, ymap, x, y)
  {
    seq(Width(xmap), x requires 0 <= x < Width(xmap) =>
      seq(|xmap[x]|, y requires 0 <= y < |xmap[x]| => Intersection(c, xmap, ymap, x, y)))
  }
}

=== FILE: grids.dfy ===
/** Grids indexed [x][y] as the detector stores them: a sequence of columns,
    every column of the same height. */
module Grids {

  /** A cell of a map that may never have been written (JavaScript `undefined`,
      which turns any arithmetic it enters into NaN). */
  datatype Option<T> = None | Some(value: T)

  function Width<T>(g: seq<seq<T>>): nat {
    |g|
  }

  /** The detector reads the height of a grid from its first column. */
  function Height<T>(g: seq<seq<T>>): nat {
    if |g| == 0 then 0 else |g[0]|
  }

  /** Every column has exactly `h` cells and there are `w` columns. */
  ghost predicate HasShape<T>(g: seq<seq<T>>, w: nat, h: nat) {
    |g| == w && forall x :: 0 <= x < w ==> |g[x]| == h
  }

  /** A rectangular grid, possibly with no columns. */
  ghost predicate IsGrid<T>(g: seq<seq<T>>) {
    HasShape(g, Width(g), Height(g))
  }

  /** A base map: rectangular with at least one column (the detector reads `base[0]`). */
  ghost predicate IsBase(g: seq<seq<int>>) {
    |g| > 0 && IsGrid(g)
  }

  predicate InGrid<T>(g: seq<seq<T>>, x: int, y: int) {
    0 <= x < Width(g) && 0 <= y < Height(g)
  }

  ghost predicate SameShape<T, U>(a: seq<seq<T>>, b: seq<seq<U>>) {
    IsGrid(a) && HasShape(b, Width(a), Height(a))
  }

  ghost predicate NonNeg(g: seq<seq<int>>) {
    forall x, y :: 0 <= x < |g| && 0 <= y < |g[x]| ==> g[x][y] >= 0
  }

  ghost predicate AllZero(g: seq<seq<int>>) {
    forall x, y :: 0 <= x < |g| && 0 <= y < |g[x]| ==> g[x][y] == 0
  }

  /** Every cell that is defined holds a non-negative value. */
  ghost predicate DefinedNonNeg(g: seq<seq<Option<int>>>) {
    forall x, y :: 0 <= x < |g| && 0 <= y < |g[x]| && g[x][y].Some? ==> g[x][y].value >= 0
  }

  /** Every cell holds the same value as the first. */
  ghost predicate Uniform(g: seq<seq<int>>) {
    |g| > 0 && |g[0]| > 0 && forall x, y :: 0 <= x < |g| && 0 <= y < |g[x]| ==> g[x][y] == g[0][0]
  }
}

=== FILE: numbers.dfy ===
/** Integer helpers standing in for Math.abs, Math.max and Math.min on integers. */
module Numbers {

  function Abs(a: int): nat {
    if a < 0 then -a else a
  }

  function Max(a: int, b: int): int {
    if a < b then b else a
  }

  function Min(a: int, b: int): int {
    if a < b then a else b
  }
}

=== FILE: selection.dfy ===
/** findMaxPoint: scan a fused map column by column (x outer, y inner) and
    keep the first cell whose score beats everything seen so far. */
module Selection {
  import opened Grids

  datatype Point = Point(x: int, y: int, score: real)

  /** The starting value of the scan, returned when no cell is positive. */
  const NoPoint := Point(-1, -1, 0.0)

  /** (a, b) comes before (p, q) in the scan order. */
  predicate Before(a: int, b: int, p: int, q: int) {
    a < p || (a == p && b < q)
  }

  /** One step of the scan. An undefined cell (NaN) never compares greater. */
  function Consider(best: Point, x: int, y: int, v: Option<real>): Point {
    if v.Some? && v.value > best.score then Point(x, y, v.value) else best
  }

  /** `best` is what the scan holds once every cell before (i, j) has been
      considered: an upper bound of those cells, and either the starting
      value or the first of them that attains it. */
  ghost predicate Summarises(m: seq<seq<Option<real>>>, best: Point, i: int, j: int)
    requires IsGrid(m)
  {
    && best.score >= 0.0
    && (forall a, b :: InGrid(m, a, b) && Before(a, b, i, j) && m[a][b].Some? ==> m[a][b].value <= best.score)
    && (best == NoPoint
        || (&& InGrid(m, best.x, best.y) && Before(best.x, best.y, i, j)
            && m[best.x][best.y] == Some(best.score) && best.score > 0.0
            && forall a, b :: InGrid(m, a, b) && Before(a, b, best.x, best.y) && m[a][b].Some? ==>
                                m[a][b].value < best.score))
  }

  lemma ConsiderStep(m: seq<seq<Option<real>>>, best: Point, x: int, y: int)
    requires IsGrid(m) && InGrid(m, x, y) && Summarises(m, best, x, y)
    ensures Summarises(m, Consider(best, x, y, m[x][y]), x, y + 1)
  {
  }

  /** The inner loop: cells (x, j)..(x, height-1). */
  function ScanColumn(m: seq<seq<Option<real>>>, x: int, j: int, best: Point): (r: Point)
    requires IsGrid(m) && 0 <= x < Width(m) && 0 <= j <= Height(m)
    requires Summarises(m, best, x, j)
    ensures Summarises(m, r, x + 1, 0)
    decreases Height(m) - j
  {
    if j == Height(m) then
      assert forall a, b :: InGrid(m, a, b) ==> (Before(a, b, x, j) <==> Before(a, b, x + 1, 0));
      best
    else
      ConsiderStep(m, best, x, j);
      ScanColumn(m, x, j + 1, Consider(best, x, j, m[x][j]))
  }

  /** The outer loop: columns i..width-1. */
  function ScanFrom(m: seq<seq<Option<real>>>, i: int, best: Point): (r: Point)
    requires IsGrid(m) && 0 <= i <= Width(m)
    requires Summarises(m, best, i, 0)
    ensures Summarises(m, r, Width(m), 0)
    decreases Width(m) - i
  {
    if i == Width(m) then best else ScanFrom(m, i + 1, ScanColumn(m, i, 0, best))
  }

  /** findMaxPoint. The score bounds every defined cell. The starting value
      (-1, -1, 0) comes back exactly when no cell is positive; otherwise the
      result is a cell holding its score, and every earlier cell in scan
      order is strictly lower. Undefined cells are never chosen. */
  function FindMaxPoint(m: seq<seq<Option<real>>>): (r: Point)
    requires IsGrid(m)
    ensures r.score >= 0.0
    ensures forall a, b :: InGrid(m, a, b) && m[a][b].Some? ==> m[a][b].value <= r.score
    ensures r == NoPoint <==> forall a, b :: InGrid(m, a, b) && m[a][b].Some? ==> m[a][b].value <= 0.0
    ensures r != NoPoint ==>
              && InGrid(m, r.x, r.y) && m[r.x][r.y] == Some(r.score)
              && forall a, b :: InGrid(m, a, b) && Before(a, b, r.x, r.y) && m[a][b].Some? ==> m[a][b].value < r.score
  {
    ScanFrom(m, 0, NoPoint)
  }
}

=== FILE: settings.dfy ===
/** The detector's tunable parameters. The source keeps them as module-level
    constants; here they are one immutable record passed to every stage. */
module Settings {

  datatype Config = Config(
    colorLevels: nat,        // brightness levels of a base map
    colorTolerance: nat,     // how far a diagonal arm may stray from the centre
    diffDistance: nat,       // how far the contrast map looks along each axis
    slopeDiffTolerance: nat, // how different two matched slopes may be
    diffThreshold: nat,      // dead zone of the colour difference
    intersectDistance: nat,  // how far the fusion looks along each axis
    clusterRadius: nat       // half-side of the cluster-weight window
  )

  /** The constants at the head of x-detector.js. */
  const Defaults := Config(16, 1, 1, 1, 1, 6, 2)

  /** The fusion divides by the number of colour levels. */
  predicate Valid(c: Config) {
    c.colorLevels > 0
  }
}

=== FILE: slopes.dfy ===
/** Diagonal run lengths: from a centre cell, walk both arms of one diagonal
    outward in lock-step and count the steps at which both arm cells stay
    near the centre's brightness. */
module Slopes {
  import opened Numbers
  import opened Grids
  import opened Settings
  import opened Colour

  /** `Positive` walks the arms (x+k, y-k) and (x-k, y+k); `Negative` walks
      (x+k, y+k) and (x-k, y-k). */
  datatype Diagonal = Positive | Negative

  /** The loop guard of the walk at step k, written as the source writes it. */
  predicate ArmsInBounds(base: seq<seq<int>>, d: Diagonal, x: int, y: int, k: int) {
    match d
    case Positive =>
      x + k < Width(base) && y - k >= 0 && x - k >= 0 && y + k < Height(base)
    case Negative =>
      x + k < Width(base) && y + k < Height(base) && x - k >= 0 && y - k >= 0
  }

  /** Both arm cells at step k are near the centre. */
  predicate StepHolds(c: Config, base: seq<seq<int>>, d: Diagonal, x: int, y: int, k: nat)
    requires IsBase(base) && ArmsInBounds(base, d, x, y, k)
  {
    var centre := base[x][y];
    match d
    case Positive => Near(c, centre, base[x + k][y - k]) && Near(c, centre, base[x - k][y + k])
    case Negative => Near(c, centre, base[x + k][y + k]) && Near(c, centre, base[x - k][y - k])
  }

  /** Step k succeeds: the arms are inside the grid and both are near the centre. */
  ghost predicate Succeeds(c: Config, base: seq<seq<int>>, d: Diagonal, x: int, y: int, k: int) {
    IsBase(base) && 0 <= k && ArmsInBounds(base, d, x, y, k) && StepHolds(c, base, d, x, y, k)
  }

  /** The longest walk the grid leaves room for: the distance to the nearest edge. */
  function Reach(base: seq<seq<int>>, x: int, y: int): int {
    Min(Min(x, y), Min(Width(base) - 1 - x, Height(base) - 1 - y))
  }

  /** The source's four-comparison guard says exactly "step k fits before the nearest edge". */
  lemma ArmsInBoundsIsReach(base: seq<seq<int>>, d: Diagonal, x: int, y: int, k: nat)
    ensures ArmsInBounds(base, d, x, y, k) <==> k <= Reach(base, x, y)
  {
  }

  /** The walk from step k on, given that steps 1..k-1 have succeeded. */
  function Walk(c: Config, base: seq<seq<int>>, d: Diagonal, x: int, y: int, k: nat): (span: nat)
    requires IsBase(base) && InGrid(base, x, y) && 1 <= k
    requires forall s :: 1 <= s < k ==> Succeeds(c, base, d, x, y, s)
    ensures k - 1 <= span
    ensures forall s :: 1 <= s <= span ==> Succeeds(c, base, d, x, y, s)
    ensures !Succeeds(c, base, d, x, y, span + 1)
    decreases Width(base) - k
  {
    if ArmsInBounds(base, d, x, y, k) && StepHolds(c, base, d, x, y, k) then Walk(c, base, d, x, y, k + 1) else k - 1
  }

  /** computePositiveSlope / computeNegativeSlope: the number of full
      successful steps. Every step up to the span succeeds, and the next one
      either leaves the grid or has an arm that is not near the centre. */
  function Slope(c: Config, base: seq<seq<int>>, d: Diagonal, x: int, y: int): (span: nat)
    requires IsBase(base) && InGrid(base, x, y)
    ensures span <= Reach(base, x, y)
    ensures forall s :: 1 <= s <= span ==> Succeeds(c, base, d, x, y, s)
    ensures span < Reach(base, x, y) ==> !StepHolds(c, base, d, x, y, span + 1)
    ensures x == 0 || y == 0 || x == Width(base) - 1 || y == Height(base) - 1 ==> span == 0
  {
    var span := Walk(c, base, d, x, y, 1);
    assert span > 0 ==> Succeeds(c, base, d, x, y, span);
    ArmsInBoundsIsReach(base, d, x, y, span);
    ArmsInBoundsIsReach(base, d, x, y, span + 1);
    span
  }

  /** The three facts Slope promises determine the span: no other count satisfies them. */
  lemma SlopeUnique(c: Config, base: seq<seq<int>>, d: Diagonal, x: int, y: int, k: nat)
    requires IsBase(base) && InGrid(base, x, y)
    requires k <= Reach(base, x, y)
    requires forall s :: 1 <= s <= k ==> Succeeds(c, base, d, x, y, s)
    requires k < Reach(base, x, y) ==> !StepHolds(c, base, d, x, y, k + 1)
    ensures k == Slope(c, base, d, x, y)
  {
    var span := Slope(c, base, d, x, y);
    assert span < k ==> Succeeds(c, base, d, x, y, span + 1);
    assert k < span ==> Succeeds(c, base, d, x, y, k + 1);
  }

  /** The walk as the source writes it: four arm coordinates advanced in a
      while loop that stops at the grid edge or at the first failing step. */
  method ComputeSlope(c: Config, base: seq<seq<int>>, d: Diagonal, x: int, y: int) returns (span: nat)
    requires IsBase(base) && InGrid(base, x, y)
    ensures span <= Reach(base, x, y)
    ensures forall s :: 1 <= s <= span ==> Succeeds(c, base, d, x, y, s)
    ensures span < Reach(base, x, y) ==> !StepHolds(c, base, d, x, y, span + 1)
    ensures span == Slope(c, base, d, x, y)
  {
    var dy := if d == Positive then -1 else 1;
    var rightX, rightY, leftX, leftY := x + 1, y + dy, x - 1, y - dy;
    var width, height := Width(base), Height(base);
    span := 0;
    while rightX < width && leftX >= 0
          && (if d == Positive then rightY >= 0 && leftY < height else rightY < height && leftY >= 0)
      invariant rightX == x + span + 1 && leftX == x - span - 1
      invariant if d == Positive then rightY == y - span - 1 && leftY == y + span + 1
                else rightY == y + span + 1 && leftY == y - span - 1
      invariant span <= Reach(base, x, y)
      invariant forall s :: 1 <= s <= span ==> Succeeds(c, base, d, x, y, s)
      decreases width - rightX
    {
      if Near(c, base[x][y], base[rightX][rightY]) && Near(c, base[x][y], base[leftX][leftY]) {
        assert Succeeds(c, base, d, x, y, span + 1);
        ArmsInBoundsIsReach(base, d, x, y, span + 1);
        rightX, rightY := rightX + 1, rightY + dy;
        leftX, leftY := leftX - 1, leftY - dy;
        span := span + 1;
      } else {
        assert !StepHolds(c, base, d, x, y, span + 1);
        break;
      }
    }
    ArmsInBoundsIsReach(base, d, x, y, span + 1);
    SlopeUnique(c, base, d, x, y, span);
  }

  /** computePositiveSlopeMap / computeNegativeSlopeMap: the slope of every cell. */
  function SlopeMap(c: Config, base: seq<seq<int>>, d: Diagonal): (m: seq<seq<int>>)
    requires IsBase(base)
    ensures HasShape(m, Width(base), Height(base))
    ensures forall x, y :: InGrid(base, x, y) ==> m[x][y] == Slope(c, base, d, x, y)
    ensures forall x, y :: InGrid(base, x, y) ==> 0 <= m[x][y] <= Reach(base, x, y)
    ensures NonNeg(m)
  {
    seq(Width(base), x requires 0 <= x < Width(base) =>
      seq(Height(base), y requires 0 <= y < Height(base) => Slope(c, base, d, x, y) as int))
  }
}
